=== FILE: README.md ===
# Verified model of a terminal file browser's core

This project models, in Dafny, the core of a small ncurses file browser:

- **`UIManager::start`**: the key-dispatch loop. It keeps a session made of
  the current directory, the listed names, the highlighted row and the scroll
  offset. It maps keys to commands, calls the file manager, and refreshes or
  resets the listing.
- **The scroll clamp of `UIManager::displayFiles`**: it keeps the highlighted
  row inside the visible window.
- **The pure logic of `FileManager`**:
  - the `changeDirectory` target rule;
  - the keyword filter of `searchFiles`;
  - the `rwxrwxrwx` permission codec behind `getPermissions` and `setPermissions`;
  - the gibibyte truncation of `getFreeSpace`.

Everything the file system, `stat`, the terminal and the prompt answer during
one step is an input (`Navigator.Replies`, `Navigator.Input`). A step returns:

- the next session;
- the file-manager calls it made, in order;
- what it showed.

Names, paths, prompt answers and permission texts are Dafny strings, and
each `char` stands for one byte of a `std::string`. Lengths such as the
nine-character gate of chmod, and the substring test of `find`, therefore
count and compare bytes, as the source does.

A step that reads `files[highlight]` with `highlight` outside the list has
undefined behaviour in C++. The model gives it its own outcome, `OutOfBounds`.

Modules:

| file | module | models |
|---|---|---|
| wrappers.dfy | `Wrappers` | `Option`, for lookups that can fail |
| permissions.dfy | `Permissions` | the nine-bit codec: the r/w/x/- positions of the `ls -l` mode text (POSIX.1-2017 `ls`, STDOUT section), without the s/S/t/T marks for the special bits |
| file_manager.dfy | `FileManager` | `changeDirectory`, `searchFiles`, `getPermissions`/`setPermissions` over a metadata map, `getFreeSpace` |
| navigator.dfy | `Navigator` | session, key decoding, scroll clamp, the commands, one step, the loop |
| navigator_properties.dfy | `NavigatorProperties` | properties relating several steps or several replies |
| findings.dfy | `Findings` | the out-of-bounds read after a move, and a corrected step |

Behaviour the model keeps as the code has it, although a reader might expect otherwise:

- Enter on a directory and Backspace reset `highlight` and `offset` and
  refresh the listing even when `changeDirectory` fails.
- Backspace at `/` succeeds and stays at `/`, because the parent of the root
  is the root.
- Delete moves a positive highlight up one row whether or not the delete
  succeeded and whether or not the list shrank.
- Create, mkdir, copy, move and find refresh the listing without clamping
  `highlight`.
- `setPermissions` with a text that is not nine characters long does not
  fail. It clears all permission bits. The loop itself never passes such a text.
- `setPermissions` replaces the whole permission set, so it also clears
  set-user-id, set-group-id and sticky.
- An error during the recursive walk of `searchFiles` ends the walk. The
  results gathered before it are kept.
- chmod reads the current permissions before it prompts, so even an aborted
  chmod has made that one read-only call.

## Model

| member | source | states |
|---|---|---|
| Permissions.Encode | FileManager.cpp:99-107 | the text is nine characters, each its position's letter or a dash |
| Permissions.Decode | FileManager.cpp:116-127 | only the nine permission bits can be set; a text whose length is not nine asks for none |
| Permissions.EncodePositions | FileManager.cpp:99-107 | position i shows `"rwxrwxrwx"[i]` exactly when mode bit i is set, a dash otherwise |
| Permissions.DecodePositions | FileManager.cpp:117-126 | for a nine-character text, bit i is set exactly when position i holds its letter; any other character leaves it clear |
| Permissions.EncodeSeesOnlyRwxBits | FileManager.cpp:99-107 | file-type and special bits never show in the text |
| Permissions.DecodeEncode | FileManager.cpp:99-126 | decoding the text of a mode gives back its nine permission bits |
| Permissions.EncodeDecode | FileManager.cpp:99-126 | every text `getPermissions` can produce survives decode-then-encode unchanged |
| Permissions.EncodeDecodeNormalises | FileManager.cpp:116-128 | any text reads back with non-letters as dashes, and as `---------` when its length is not nine |
| Permissions.EncodeDecodeIdempotent | FileManager.cpp:99-126 | applying and reading back twice equals doing it once |
| FileManager.Parent | FileManager.cpp:28 | the parent drops the last component; the root is its own parent |
| FileManager.Target | FileManager.cpp:28-29 | `..` targets the parent; an entry name targets the child one level below |
| FileManager.ChangeDirectory | FileManager.cpp:27-35 | the path moves, and true is returned, exactly when the target is an existing directory; otherwise nothing changes; the path stays a directory |
| FileManager.EnterThenLeave | FileManager.cpp:28-34 | entering a child directory and then `..` restores the original path |
| FileManager.ParentOfRoot | FileManager.cpp:28-32 | `..` at the root succeeds and stays at the root |
| FileManager.Contains | FileManager.cpp:87 | `find` succeeds exactly when the keyword occurs at some index; the empty keyword always occurs |
| FileManager.Reached | FileManager.cpp:85-90 | the walk reports exactly its entries before the first error |
| FileManager.SearchFiles | FileManager.cpp:83-92 | never more results than entries reached before the first error |
| FileManager.SearchFilesMembers | FileManager.cpp:86-88 | a path is reported exactly when some reached entry with that path has a name containing the keyword |
| FileManager.SearchFilesLoop | FileManager.cpp:84-91 | the loop that breaks at the first error computes the recursive definition |
| FileManager.SearchEmptyKeyword | FileManager.cpp:86-88 | the empty keyword reports every reached entry, in order |
| FileManager.SearchFilesAppend | FileManager.cpp:86-89 | results keep walk order across concatenated error-free stretches |
| FileManager.SearchStopsAtFailure | FileManager.cpp:85-90 | an error ends the walk and keeps the results gathered before it |
| FileManager.GetPermissions | FileManager.cpp:95-110 | the text is always a permission text; all dashes when stat fails; otherwise it decodes to the mode's permission bits |
| FileManager.SetPermissions | FileManager.cpp:113-133 | succeeds exactly for reachable entries; replaces their permission set with the decoded text; keeps the file-type bits; leaves every other entry unchanged |
| FileManager.SetThenGet | FileManager.cpp:97-128 | setting a text and reading it back gives the normalised text: the text itself when well formed, `---------` when its length is not nine |
| FileManager.FreeSpace | FileManager.cpp:142-147 | the result is the available bytes divided by 2^30, rounded down; 0 when the query fails |
| Navigator.Start | UIManager.cpp:7-8 | the loop starts on the first listing with highlight 0 and offset 0, which satisfies the selection invariant |
| Navigator.DecodeKey | UIManager.cpp:199-358 | each bound key maps to exactly its own command (up, down, Enter, c, C, d, y, m, s, p, h, q); left, backspace and 127 go to the parent; every key without a case maps to `Other` (that it then does nothing is `Navigator.Step`'s contract) |
| Navigator.Scroll | UIManager.cpp:69-74 | with at least one visible row, offset <= highlight < offset + visible; the offset is unchanged when the highlight was already visible; otherwise it moves the least it must; it stays non-negative |
| Navigator.Render | UIManager.cpp:67-74 | on a terminal taller than eight rows, the highlighted row is inside the drawn window |
| Navigator.SizeColumn | UIManager.cpp:86-98 | directories show no size; bytes below 1024, KiB below 1024*1024, MiB above |
| Navigator.MoveUp | UIManager.cpp:201-204 | decrements only a positive highlight and changes nothing else; keeps the selection invariant |
| Navigator.MoveDown | UIManager.cpp:206-209 | increments only when below the last row; an empty list stays at 0; changes nothing else; keeps the selection invariant |
| Navigator.Open | UIManager.cpp:211-231 | empty list: nothing; a directory: changeDirectory, fresh listing, highlight and offset 0; a file: launch, an `Opening` notice and no state change; reads out of bounds exactly when the highlight is off the list |
| Navigator.Ascend | UIManager.cpp:233-240 | goes to the parent when it exists and always refreshes and resets highlight and offset |
| Navigator.Create | UIManager.cpp:242-262 | an empty name aborts; otherwise exactly createFile or createDirectory of the answer, then a refresh whatever the result, keeping highlight and offset; the `[OK]`/`[ERR]` notice follows the call's result |
| Navigator.DeleteSelected | UIManager.cpp:264-275 | empty list: nothing; otherwise delete the highlighted name, refresh, and decrement a positive highlight whatever the result; the `[OK]`/`[ERR]` notice follows the call's result |
| Navigator.Transfer | UIManager.cpp:277-303 | empty list or empty destination: nothing; otherwise copy or move the highlighted name and refresh whatever the result, keeping highlight and offset; the `[OK]`/`[ERR]` notice follows the call's result |
| Navigator.FindEntries | UIManager.cpp:305-325 | an empty keyword aborts; otherwise search, show the results, then refresh |
| Navigator.EditPermissions | UIManager.cpp:327-350 | empty list: nothing; shows the permissions; setPermissions is called exactly when the answer has nine characters; the shown permissions are followed by the call's `[OK]`/`[ERR]` notice, or by `[ERR] Invalid format` for any other non-empty length; the session never changes |
| Navigator.Step | UIManager.cpp:199-358 | only Quit ends the loop; an undefined read needs an entry key with the highlight off the list; every create, delete, copy or move is followed by a refresh; up and down change only the highlight, help only shows the help screen, and a key without a case leaves the session untouched with no call and no notice |
| Navigator.Turn | UIManager.cpp:194-199 | one turn ends exactly on `q`; for a key that neither refreshes nor resets the listing, the frame drawn before it (the `displayFiles` clamp) showed the highlighted row |
| Navigator.Run | UIManager.cpp:189-360 | the loop ends only if some key was `q` |
| Navigator.RunOne | UIManager.cpp:194-199 | a one-key run is that key's turn |
| Navigator.RunAppend | UIManager.cpp:189-360 | each turn acts on the session the previous turn left: a run of `a` then `b` is `b` run from where `a` left off, with `a`'s calls and notices ahead of `b`'s; a run of `a` that stopped is not continued |
| Navigator.RunStopsAtQuit | UIManager.cpp:356-357 | once the loop reaches a `q` it ends and the keys after it are never read; a run that stopped earlier keeps its outcome |
| NavigatorProperties.EmptyListIgnoresEntryKeys | UIManager.cpp:211-350 | on an empty list, Enter, d, y, m and p make no call and change nothing |
| NavigatorProperties.EmptyAnswerAborts | UIManager.cpp:242-338 | an empty prompt answer changes nothing and makes no mutating call and no refresh; for touch, mkdir and find, whatever the highlight |
| NavigatorProperties.NavigationResetsWhateverTheAnswer | UIManager.cpp:215-239 | entering a directory or going to the parent shows the fresh listing from row 0, whatever changeDirectory returned |
| NavigatorProperties.RefreshIgnoresResult | UIManager.cpp:247-301 | the state after create, mkdir, delete, copy and move is the same whether the call succeeded or failed |
| NavigatorProperties.MutationRefreshes | UIManager.cpp:247-301 | each attempted mutation is followed by a refresh to the new listing; touch and mkdir at any highlight, even one past the end of the list |
| NavigatorProperties.ChmodLengthGate | UIManager.cpp:339-348 | setPermissions is reached exactly when the answer has nine characters |
| NavigatorProperties.UpUndoesDown | UIManager.cpp:201-209 | Up after a Down that moved returns to the same session |
| NavigatorProperties.DownUndoesUp | UIManager.cpp:201-209 | Down after an Up that moved returns to the same session |
| NavigatorProperties.StepPreservesInRange | UIManager.cpp:199-358 | the selection invariant survives every step, provided a refreshed listing is no shorter than before (one shorter for delete) |
| NavigatorProperties.EnterThenParentReturns | UIManager.cpp:215-239 | entering a child directory and pressing Backspace returns to the starting directory |
| NavigatorProperties.BrowsingKeepsSelection | UIManager.cpp:194-209 | any run of Up/Down keys makes no call, keeps listing and path, and keeps the selection invariant |
| NavigatorProperties.DeleteScenario | UIManager.cpp:201-275 | in `[a.txt, b.txt, sub]`: Down selects b.txt; Up selects a.txt; deleting it leaves a valid selection |
| Findings.MoveAwayThenEnterReadsPastEnd | UIManager.cpp:291-303 | moving the last entry away leaves highlight past the end, and the next Enter reads out of bounds |
| Findings.Reclamp | UIManager.cpp:299-301 | the clamp puts the highlight back on the list and leaves an in-range session alone |
| Findings.StepClamped | UIManager.cpp:199-358 | the corrected step never reads out of bounds and keeps the selection invariant; it equals the step as written except for the highlight, which it changes only when that step left it off the list |
| Findings.RunClamped | UIManager.cpp:194-358 | the corrected loop, like the loop as written, ends only if some key was `q` |
| Findings.RunClampedNeverReadsPastEnd | UIManager.cpp:194-358 | with the clamp, no sequence of keys and replies reaches an out-of-bounds read |

## Left out

- Drawing and terminal input: `drawHeader`, `drawFooter`, `drawInstructions`, `showHelp`, `prompt`, colours, and message placement. Keys and prompt answers are inputs. The 255-character limit of `getnstr` is not modelled.
- Navigator.Open: the launch via `system("start ...")` is recorded as a `Launch` call with no effect. The external process is not modelled.
- Navigator.FindEntries: the search-result screen lists every result. The source stops drawing at the bottom of the screen, which is rendering only.
- Navigator.SizeColumn: only the unit threshold is modelled. The one-decimal floating-point KB/MB text is not.
- `listFiles`, `createFile`, `createDirectory`, `deleteFile`, `copyFile`, `moveFile`, `isDirectory`, `getFileSize` and `stat` are thin `std::filesystem` wrappers. Their answers are inputs of a step (`Replies`).
- The key that dismisses the help screen and the search results is read inside the same step and ignored, as in the source.
- FileManager.ChangeDirectory: paths are canonical component sequences without symlinks. `canonical` symlink resolution, names containing `/`, and the exceptions that `exists`, `is_directory` and `canonical` can throw are not modelled. Those exceptions are uncaught in the source.
- FileManager.SetPermissions: failure is modelled only as an unreachable entry (not in the metadata map). A permission refusal on a reachable entry is not modelled separately.
- `stat` is stood in for by `FileManager.Stat`, a lookup in a metadata map. An entry outside the map is one whose metadata cannot be read.
- `getCurrentPath`, and the free-space value that `drawFooter` computes but never shows, are not modelled beyond `FileManager.FreeSpace`.
- main.cpp (terminal and colour set-up) is not part of this model.

## Findings

| source | as written | input that shows it | evidently intended | confidence | as-written member | corrected member |
|---|---|---|---|---|---|---|
| UIManager.cpp:291-303 | after `mv` (also `touch`, `mkdir`, `cp`, find) the listing is refreshed and `highlight` is kept as it was | files `[a, b]`, highlight 1, `m` with destination `../b` succeeding, listing becomes `[a]`, then Enter reads `files[1]` | clamp `highlight` into the refreshed listing, as delete nearly does | not executed; high | Findings.MoveAwayThenEnterReadsPastEnd | Findings.StepClamped |

`Navigator.Step` and `Navigator.Run` keep the code as written, because they
describe the program. `Findings.StepClamped` and `Findings.RunClamped` are
the corrected loop. `Findings.RunClampedNeverReadsPastEnd` proves that the
corrected loop never reaches the undefined read.

=== FILE: file_manager.dfy ===
/** The pure parts of `FileManager`: the `changeDirectory` target rule, the
    keyword filter of `searchFiles`, the permission text of `getPermissions` and
    the permission update of `setPermissions`, and the arithmetic of
    `getFreeSpace`. What `std::filesystem` and `stat` answer is passed in. */
module FileManager {
  import opened Wrappers
  import opened Permissions

  /** An unsigned 64-bit integer (`unsigned long long`, `uintmax_t`). */
  newtype u64 = x: int | 0 <= x < 0x1_0000_0000_0000_0000

  // ---------------------------------------------------------------------------
  // changeDirectory

  /** A canonical absolute path, as its components below the root: `[]` is `/`,
      `["home", "ann"]` is `/home/ann`. */
  type Path = seq<string>

  /** `parent_path()` of a canonical path; the parent of the root is the root. */
  function Parent(p: Path): (q: Path)
    ensures |p| == 0 ==> q == p
    ensures |p| > 0 ==> q + [p[|p| - 1]] == p
  {
    if |p| == 0 then p else p[..|p| - 1]
  }

  /** A name `listFiles` can report: one path component, neither `.` nor `..`. */
  predicate IsEntryName(dir: string) {
    dir != "" && dir != "." && dir != ".." && '/' !in dir
  }

  /** The canonical form of the path `changeDirectory(dir)` tests: the parent for
      `..`, the current directory itself for `.` and for the empty name (a
      trailing separator), and the child `dir` otherwise. */
  function Target(cur: Path, dir: string): (t: Path)
    ensures dir == ".." ==> t == Parent(cur)
    ensures IsEntryName(dir) ==> |t| == |cur| + 1 && t[..|cur|] == cur && t[|cur|] == dir
  {
    if dir == ".." then Parent(cur)
    else if dir == "." || dir == "" then cur
    else cur + [dir]
  }

  /** What `changeDirectory` leaves behind: the current path and its return value. */
  datatype Moved = Moved(path: Path, ok: bool)

  /** `changeDirectory(dir)` with `dirs` the set of existing directories: the
      current path moves to the target, and `true` is returned, exactly when the
      target exists and is a directory; otherwise nothing changes. */
  function ChangeDirectory(cur: Path, dirs: set<Path>, dir: string): (r: Moved)
    ensures r.ok <==> Target(cur, dir) in dirs
    ensures r.ok ==> r.path == Target(cur, dir)
    ensures !r.ok ==> r.path == cur
    ensures r.ok ==> r.path in dirs
    ensures cur in dirs ==> r.path in dirs
  {
    var t := Target(cur, dir);
    if t in dirs then Moved(t, true) else Moved(cur, false)
  }

  /** Entering a child directory and then `..` comes back to where it started. */
  lemma EnterThenLeave(cur: Path, dirs: set<Path>, dir: string)
    requires IsEntryName(dir)
    requires cur in dirs && cur + [dir] in dirs
    ensures ChangeDirectory(cur, dirs, dir) == Moved(cur + [dir], true)
    ensures ChangeDirectory(ChangeDirectory(cur, dirs, dir).path, dirs, "..") == Moved(cur, true)
  {
  }

  /** At the root, `..` names the root itself, so the call succeeds and stays put. */
  lemma ParentOfRoot(dirs: set<Path>)
    requires [] in dirs
    ensures ChangeDirectory([], dirs, "..") == Moved([], true)
  {
  }

  // ---------------------------------------------------------------------------
  // searchFiles

  /** `k` occurs in `s` starting at index `i`. */
  predicate OccursAt(s: string, k: string, i: int) {
    0 <= i && i + |k| <= |s| && s[i..i + |k|] == k
  }

  lemma OccursAtShift(s: string, k: string, i: int)
    requires |s| > 0 && 0 <= i
    ensures OccursAt(s[1..], k, i) <==> OccursAt(s, k, i + 1)
  {
  }

  /** `s.find(k) != std::string::npos`: `k` occurs somewhere in `s`. The empty
      keyword occurs in every name. */
  function Contains(s: string, k: string): (b: bool)
    ensures b <==> exists i :: OccursAt(s, k, i)
    ensures k == [] ==> b
    decreases |s|
  {
    assert OccursAt(s, k, 0) <==> |k| <= |s| && s[..|k|] == k;
    if |k| > |s| then
      false
    else if s[..|k|] == k then
      true
    else
      var b := Contains(s[1..], k);
      assert b ==> exists i :: OccursAt(s, k, i) by {
        if b {
          var i :| OccursAt(s[1..], k, i);
          OccursAtShift(s, k, i);
        }
      }
      assert (exists i :: OccursAt(s, k, i)) ==> b by {
        if exists i :: OccursAt(s, k, i) {
          var i :| OccursAt(s, k, i);
          assert i != 0;
          OccursAtShift(s, k, i - 1);
        }
      }
      b
  }

  /** One step of the recursive directory walk: an entry it visited, or an error
      raised while advancing, which ends the walk. */
  datatype Visit = Visited(name: string, fullPath: string) | Failed

  /** How many entries the walk reports before its first error. */
  function Reached(walk: seq<Visit>): (k: nat)
    ensures k <= |walk|
    ensures forall i | 0 <= i < k :: walk[i].Visited?
    ensures k < |walk| ==> walk[k].Failed?
  {
    if |walk| == 0 || walk[0].Failed? then 0 else 1 + Reached(walk[1..])
  }

  /** `searchFiles(keyword)`: the full paths of the entries visited before the
      first error whose file name contains `keyword`, in walk order. */
  function SearchFiles(walk: seq<Visit>, keyword: string): (r: seq<string>)
    ensures |r| <= Reached(walk)
  {
    if |walk| == 0 || walk[0].Failed? then
      []
    else
      (if Contains(walk[0].name, keyword) then [walk[0].fullPath] else []) + SearchFiles(walk[1..], keyword)
  }

  /** Exactly the matching entries reached before the first error are reported. */
  lemma {:induction false} SearchFilesMembers(walk: seq<Visit>, keyword: string)
    ensures forall p | p in SearchFiles(walk, keyword) :: exists i | 0 <= i < Reached(walk) ::
      walk[i].fullPath == p && Contains(walk[i].name, keyword)
    ensures forall i | 0 <= i < Reached(walk) && Contains(walk[i].name, keyword) ::
      walk[i].fullPath in SearchFiles(walk, keyword)
  {
    if |walk| > 0 && walk[0].Visited? {
      SearchFilesMembers(walk[1..], keyword);
      assert forall i | 0 <= i < Reached(walk[1..]) :: walk[1..][i] == walk[i + 1];
    }
  }

  /** The walk from a visited entry on: that entry's match, then the rest. */
  lemma SearchFilesFrom(walk: seq<Visit>, i: int, keyword: string)
    requires 0 <= i < |walk| && walk[i].Visited?
    ensures SearchFiles(walk[i..], keyword) ==
      (if Contains(walk[i].name, keyword) then [walk[i].fullPath] else []) + SearchFiles(walk[i + 1..], keyword)
  {
    assert walk[i..][0] == walk[i];
    assert walk[i..][1..] == walk[i + 1..];
  }

  /** The walk loop of `searchFiles` as written: visit entries until the walk
      ends or raises, keeping the matching ones. */
  method SearchFilesLoop(walk: seq<Visit>, keyword: string) returns (results: seq<string>)
    ensures results == SearchFiles(walk, keyword)
  {
    results := [];
    var i := 0;
    while i < |walk| && walk[i].Visited?
      invariant 0 <= i <= |walk|
      invariant SearchFiles(walk, keyword) == results + SearchFiles(walk[i..], keyword)
    {
      SearchFilesFrom(walk, i, keyword);
      var here := if Contains(walk[i].name, keyword) then [walk[i].fullPath] else [];
      results := results + here;
      i := i + 1;
    }
  }

  /** The empty keyword matches every entry visited before the first error. */
  lemma {:induction false} SearchEmptyKeyword(walk: seq<Visit>)
    ensures |SearchFiles(walk, "")| == Reached(walk)
    ensures forall i | 0 <= i < Reached(walk) :: SearchFiles(walk, "")[i] == walk[i].fullPath
  {
    if |walk| > 0 && walk[0].Visited? {
      SearchEmptyKeyword(walk[1..]);
      assert forall i | 0 <= i < Reached(walk[1..]) :: walk[1..][i] == walk[i + 1];
    }
  }

  /** Results keep walk order: an error-free stretch of the walk contributes its
      matches ahead of whatever follows it. */
  lemma {:induction false} SearchFilesAppend(a: seq<Visit>, b: seq<Visit>, keyword: string)
    requires forall i | 0 <= i < |a| :: a[i].Visited?
    ensures SearchFiles(a + b, keyword) == SearchFiles(a, keyword) + SearchFiles(b, keyword)
  {
    if |a| > 0 {
      assert (a + b)[0] == a[0] && a[0].Visited?;
      assert (a + b)[1..] == a[1..] + b;
      assert forall i | 0 <= i < |a[1..]| :: a[1..][i] == a[i + 1];
      SearchFilesAppend(a[1..], b, keyword);
    } else {
      assert a + b == b;
    }
  }

  /** An error ends the walk and keeps what was gathered before it. */
  lemma {:induction false} SearchStopsAtFailure(a: seq<Visit>, b: seq<Visit>, keyword: string)
    ensures SearchFiles(a + [Failed] + b, keyword) == SearchFiles(a, keyword)
  {
    if |a| > 0 && a[0].Visited? {
      assert (a + [Failed] + b)[1..] == a[1..] + [Failed] + b;
      SearchStopsAtFailure(a[1..], b, keyword);
    } else if |a| == 0 {
      assert (a + [Failed] + b)[0] == Failed;
    } else {
      assert (a + [Failed] + b)[0] == a[0];
    }
  }

  // ---------------------------------------------------------------------------
  // getPermissions / setPermissions

  /** The mode words `stat` can read, by entry name; an entry outside the map is
      one whose metadata cannot be read (and whose permissions cannot be set). */
  type Metadata = map<string, Mode>

  /** The stand-in for `stat`: the mode word of a reachable entry. */
  function Stat(meta: Metadata, name: string): Option<Mode> {
    if name in meta then Some(meta[name]) else None
  }

  /** `getPermissions`: the permission text of the entry, or all dashes when its
      metadata cannot be read. */
  function GetPermissions(stat: Option<Mode>): (s: string)
    ensures IsPermString(s)
    ensures stat.None? ==> s == NoPerms
    ensures stat.Some? ==> Decode(s) == stat.value & RwxBits
  {
    DecodeEncode(stat.GetOr(0));
    match stat
    case None => NoPerms
    case Some(m) => Encode(m)
  }

  /** What `setPermissions` leaves behind: the metadata and its return value. */
  datatype Chmodded = Chmodded(meta: Metadata, ok: bool)

  /** `setPermissions(name, mode)`: replaces the whole permission set of the
      entry (`perm_options::replace`, so set-user-id, set-group-id and sticky are
      cleared too) with the set the text asks for; the file-type bits stay. It
      fails, changing nothing, when the entry cannot be reached. */
  function SetPermissions(meta: Metadata, name: string, mode: string): (r: Chmodded)
    ensures r.ok <==> name in meta
    ensures !r.ok ==> r.meta == meta
    ensures r.meta.Keys == meta.Keys
    ensures forall n | n in meta && n != name :: r.meta[n] == meta[n]
    ensures r.ok ==> r.meta[name] & AllPerms == Decode(mode)
    ensures r.ok ==> r.meta[name] & !AllPerms == meta[name] & !AllPerms
  {
    if name in meta then
      Chmodded(meta[name := (meta[name] & !AllPerms) | Decode(mode)], true)
    else
      Chmodded(meta, false)
  }

  /** Setting a permission text and reading it back gives the normalised text:
      the text itself when `getPermissions` could have produced it, all dashes
      when its length is not nine. */
  lemma SetThenGet(meta: Metadata, name: string, mode: string)
    requires name in meta
    ensures GetPermissions(Stat(SetPermissions(meta, name, mode).meta, name)) == Encode(Decode(mode))
    ensures IsPermString(mode) ==> GetPermissions(Stat(SetPermissions(meta, name, mode).meta, name)) == mode
    ensures |mode| != 9 ==> GetPermissions(Stat(SetPermissions(meta, name, mode).meta, name)) == NoPerms
  {
    var m := SetPermissions(meta, name, mode).meta[name];
    assert m & RwxBits == Decode(mode) & RwxBits;
    EncodeSeesOnlyRwxBits(m, Decode(mode));
    EncodeDecodeNormalises(mode);
    if IsPermString(mode) {
      EncodeDecode(mode);
    }
  }

  // ---------------------------------------------------------------------------
  // getFreeSpace

  const GiB: int := 1024 * 1024 * 1024

  /** `getFreeSpace`: the available bytes in whole gibibytes, rounded down, or
      0 when the query fails. */
  function FreeSpace(available: Option<u64>): (gib: u64)
    ensures available.None? ==> gib == 0
    ensures available.Some? ==> gib as int * GiB <= available.value as int < (gib as int + 1) * GiB
  {
    match available
    case None => 0
    case Some(a) => (a as int / GiB) as u64
  }
}

=== FILE: findings.dfy ===
/** Moving (or, when something outside the program removes entries, creating,
    copying or searching) refreshes the listing without clamping `highlight`.
    Moving the last entry out of the directory leaves `highlight` one past the
    end, and the next Enter, d, y, m or p then reads `files[highlight]` out of
    bounds. This module exhibits that run on the loop as written, and proves
    that a loop which re-clamps after every step never reads out of bounds. */
module Findings {
  import opened Wrappers
  import opened Navigator

  /** The loop as written: `mv` of the last entry to `../b` succeeds, the
      listing shrinks, and the following Enter reads past its end. */
  lemma MoveAwayThenEnterReadsPastEnd()
    ensures var s := Session([], ["a", "b"], 1, 0);
      var r := Replies(false, {}, "../b", true, ["a"], [], None);
      var o := Step(s, Move, r);
      && InRange(s)
      && o.Continue? && o.next.files == ["a"] && o.next.highlight == 1
      && !InRange(o.next)
      && Step(o.next, Enter, r) == OutOfBounds
  {
  }

  /** Pulls `highlight` back onto the listing: the last row when it points past
      the end, 0 when the listing is empty. */
  function Reclamp(s: Session): (t: Session)
    requires 0 <= s.highlight
    ensures InRange(t)
    ensures t == s.(highlight := t.highlight)
    ensures InRange(s) ==> t == s
    ensures !InRange(s) && |s.files| > 0 ==> t.highlight == |s.files| - 1
  {
    if |s.files| == 0 then s.(highlight := 0)
    else if s.highlight >= |s.files| then s.(highlight := |s.files| - 1)
    else s
  }

  /** The corrected step: the step as written, then the clamp. */
  function StepClamped(s: Session, cmd: Command, r: Replies): (o: Outcome)
    requires InRange(s)
    ensures !o.OutOfBounds?
    ensures o.Continue? ==> InRange(o.next)
    ensures o.Exit? <==> cmd == Quit
    ensures o.Continue? ==> Step(s, cmd, r).Continue? && o.calls == Step(s, cmd, r).calls
    ensures o.Continue? ==>
      && o.next == Step(s, cmd, r).next.(highlight := o.next.highlight)
      && o.notices == Step(s, cmd, r).notices
    ensures o.Continue? && InRange(Step(s, cmd, r).next) ==> o.next == Step(s, cmd, r).next
  {
    match Step(s, cmd, r)
    case Continue(t, calls, notices) => Continue(Reclamp(t), calls, notices)
    case other => other
  }

  /** The corrected loop. */
  function RunClamped(s: Session, inputs: seq<Input>): (o: Outcome)
    requires InRange(s)
    ensures o.Exit? ==> exists j | 0 <= j < |inputs| :: inputs[j].key == 'q' as int
    decreases |inputs|
  {
    if |inputs| == 0 then Idle(s)
    else
      var i := inputs[0];
      var o := StepClamped(Render(s, i.rows), DecodeKey(i.key), i.replies);
      if !o.Continue? then o
      else
        match RunClamped(o.next, inputs[1..])
        case Continue(u, calls', notices') => Continue(u, o.calls + calls', o.notices + notices')
        case other => other
  }

  /** With the clamp, no sequence of keys and replies reaches an undefined
      read, and the selection invariant holds whenever the loop goes on. */
  lemma {:induction false} RunClampedNeverReadsPastEnd(s: Session, inputs: seq<Input>)
    requires InRange(s)
    ensures !RunClamped(s, inputs).OutOfBounds?
    ensures RunClamped(s, inputs).Continue? ==> InRange(RunClamped(s, inputs).next)
    decreases |inputs|
  {
    if |inputs| > 0 {
      var i := inputs[0];
      var o := StepClamped(Render(s, i.rows), DecodeKey(i.key), i.replies);
      if o.Continue? {
        RunClampedNeverReadsPastEnd(o.next, inputs[1..]);
      }
    }
  }
}

=== FILE: navigator.dfy ===
/** The browsing loop of `UIManager::start`: a session (current path, listed
    names, highlighted index, scroll offset), the commands the keys decode to,
    and one step of the loop per command. What the file manager, the prompt and
    the terminal answer during a step is passed in as `Replies`; the step
    reports which file-manager calls it made, in order, and what it showed. */
module Navigator {
  import opened Wrappers
  import opened Permissions
  import FM = FileManager

  /** The state the loop keeps between keys: the file manager's `currentPath`,
      the listing `files`, and `UIManager`'s `highlight` and `offset`. */
  datatype Session = Session(currentPath: FM.Path, files: seq<string>, highlight: int, offset: int)

  /** A fresh session: `UIManager` starts with `highlight` and `offset` at 0 and
      `start` lists the working directory once. */
  function Start(cwd: FM.Path, listing: seq<string>): (s: Session)
    ensures s.currentPath == cwd && s.files == listing
    ensures s.highlight == 0 && s.offset == 0
    ensures InRange(s)
  {
    Session(cwd, listing, 0, 0)
  }

  /** `files[highlight]` names an entry. */
  predicate Selectable(s: Session) {
    0 <= s.highlight < |s.files|
  }

  /** The selection invariant: a listed index, or 0 when the list is empty. */
  predicate InRange(s: Session) {
    0 <= s.highlight && (s.highlight < |s.files| || s.highlight == 0)
  }

  // ---------------------------------------------------------------------------
  // Keys

  datatype Command =
    | Up | Down | Enter | Parent | Touch | Mkdir | Delete | Copy | Move | Find | Chmod | Help | Quit | Other

  // ncurses key codes
  const KeyDown: int := 0x102
  const KeyUp: int := 0x103
  const KeyLeft: int := 0x104
  const KeyBackspace: int := 0x107
  const Newline: int := 10
  const Delete127: int := 127

  /** Every key the `switch` in `start` has a case for. */
  const BoundKeys: set<int> :=
    { KeyUp, KeyDown, Newline, KeyLeft, KeyBackspace, Delete127,
      'c' as int, 'C' as int, 'd' as int, 'y' as int, 'm' as int, 's' as int, 'p' as int, 'h' as int, 'q' as int }

  /** The `case` labels of the `switch` in `start`. */
  function DecodeKey(ch: int): (c: Command)
    ensures c == Up <==> ch == KeyUp
    ensures c == Down <==> ch == KeyDown
    ensures c == Enter <==> ch == Newline
    ensures c == Parent <==> ch in {KeyLeft, KeyBackspace, Delete127}
    ensures c == Touch <==> ch == 'c' as int
    ensures c == Mkdir <==> ch == 'C' as int
    ensures c == Delete <==> ch == 'd' as int
    ensures c == Copy <==> ch == 'y' as int
    ensures c == Move <==> ch == 'm' as int
    ensures c == Find <==> ch == 's' as int
    ensures c == Chmod <==> ch == 'p' as int
    ensures c == Help <==> ch == 'h' as int
    ensures c == Quit <==> ch == 'q' as int
    ensures c == Other <==> ch !in BoundKeys
  {
    if ch == KeyUp then Up
    else if ch == KeyDown then Down
    else if ch == Newline then Enter
    else if ch == KeyLeft || ch == KeyBackspace || ch == Delete127 then Parent
    else if ch == 'c' as int then Touch
    else if ch == 'C' as int then Mkdir
    else if ch == 'd' as int then Delete
    else if ch == 'y' as int then Copy
    else if ch == 'm' as int then Move
    else if ch == 's' as int then Find
    else if ch == 'p' as int then Chmod
    else if ch == 'h' as int then Help
    else if ch == 'q' as int then Quit
    else Other
  }

  // ---------------------------------------------------------------------------
  // What a step consumes and produces

  /** Everything a step learns from outside: the answers of the file manager,
      of `stat`, and of the one prompt the command may show. Each step reads
      only the fields its command needs. */
  datatype Replies = Replies(
    isDirectory: bool,          // isDirectory of the highlighted name
    dirs: set<FM.Path>,         // the directories that exist, for changeDirectory
    answer: string,             // what the prompt returns
    ok: bool,                   // what createFile/createDirectory/deleteFile/copyFile/moveFile/setPermissions return
    listing: seq<string>,       // what listFiles returns when the list is refreshed
    walk: seq<FM.Visit>,        // the recursive walk of searchFiles
    stat: Option<Mode>)         // the mode stat reads for the highlighted name

  /** The calls a step makes on the file manager, plus the external launch. */
  datatype Call =
    | IsDirectory(name: string)
    | ChangeDirectory(dir: string)
    | ListFiles
    | CreateFile(name: string)
    | CreateDirectory(name: string)
    | DeleteFile(name: string)
    | CopyFile(src: string, dest: string)
    | MoveFile(src: string, dest: string)
    | SearchFiles(keyword: string)
    | GetPermissions(name: string)
    | SetPermissions(name: string, mode: string)
    | Launch(cwd: FM.Path, name: string)

  /** The calls that change the file system. */
  predicate Mutates(c: Call) {
    c.CreateFile? || c.CreateDirectory? || c.DeleteFile? || c.CopyFile? || c.MoveFile? || c.SetPermissions?
  }

  /** What a step shows besides the listing. */
  datatype Notice =
    | Opening(name: string)                      // [INFO] Opening '...'
    | Reported(call: Call, ok: bool)             // [OK] ... / [ERR] ...
    | InvalidFormat                              // [ERR] Invalid format
    | Results(keyword: string, paths: seq<string>)
    | HelpScreen
    | ShowPermissions(name: string, perms: string)

  /** One step's result: the loop goes on, it ends on `q`, or the step reads
      `files[highlight]` with `highlight` outside the list, which the source
      leaves undefined. */
  datatype Outcome =
    | Continue(next: Session, calls: seq<Call>, notices: seq<Notice>)
    | Exit
    | OutOfBounds

  function Idle(s: Session): Outcome {
    Continue(s, [], [])
  }

  /** No call of the step changes the file system. */
  predicate ReadOnly(o: Outcome) {
    o.Continue? ==> forall i | 0 <= i < |o.calls| :: !Mutates(o.calls[i])
  }

  // ---------------------------------------------------------------------------
  // Rendering: the scroll clamp of `displayFiles`

  /** Rows of the screen that do not show entries. */
  const Chrome: int := 8

  /** The clamp `displayFiles` applies before drawing `visible` rows: the window
      moves the least it must to show the highlighted row. When `visible` is
      not positive no row can show, and the clamp pushes the window past the
      highlight. */
  function Scroll(s: Session, visible: int): (t: Session)
    ensures t == s.(offset := t.offset)
    ensures visible >= 1 ==> t.offset <= t.highlight < t.offset + visible
    ensures s.offset <= s.highlight < s.offset + visible ==> t == s
    ensures s.highlight < s.offset ==> t.offset == s.highlight
    ensures s.offset <= s.highlight && s.offset + visible <= s.highlight ==> t.offset + visible == s.highlight + 1
    ensures 0 <= s.highlight && 0 <= s.offset ==> 0 <= t.offset
    ensures visible < 1 && s.offset <= s.highlight ==> s.highlight < t.offset
  {
    if s.highlight < s.offset then s.(offset := s.highlight)
    else if s.highlight >= s.offset + visible then s.(offset := s.highlight - visible + 1)
    else s
  }

  /** `displayFiles` on a terminal of `rows` rows. */
  function Render(s: Session, rows: int): (t: Session)
    ensures rows > Chrome ==> t.offset <= t.highlight < t.offset + (rows - Chrome)
    ensures t == s.(offset := t.offset)
  {
    Scroll(s, rows - Chrome)
  }

  /** The unit of the SIZE column. */
  datatype SizeUnit = NoSize | Bytes | KiB | MiB

  /** The SIZE column chooses its unit by 1024-based thresholds; directories
      show `--`. */
  function SizeColumn(isDir: bool, size: FM.u64): (u: SizeUnit)
    ensures u == NoSize <==> isDir
    ensures u == Bytes <==> !isDir && size < 1024
    ensures u == KiB <==> !isDir && 1024 <= size < 1024 * 1024
    ensures u == MiB <==> !isDir && 1024 * 1024 <= size
  {
    if isDir then NoSize
    else if size < 1024 then Bytes
    else if size < 1024 * 1024 then KiB
    else MiB
  }

  // ---------------------------------------------------------------------------
  // The commands

  /** KEY_UP: one row up, never below the first. */
  function MoveUp(s: Session): (t: Session)
    ensures t == s.(highlight := t.highlight)
    ensures s.highlight > 0 ==> t.highlight == s.highlight - 1
    ensures s.highlight <= 0 ==> t == s
    ensures InRange(s) ==> InRange(t)
  {
    if s.highlight > 0 then s.(highlight := s.highlight - 1) else s
  }

  /** KEY_DOWN: one row down, never past the last; nothing moves in an empty list. */
  function MoveDown(s: Session): (t: Session)
    ensures t == s.(highlight := t.highlight)
    ensures s.highlight < |s.files| - 1 ==> t.highlight == s.highlight + 1
    ensures s.highlight >= |s.files| - 1 ==> t == s
    ensures |s.files| == 0 && 0 <= s.highlight ==> t == s
    ensures InRange(s) ==> InRange(t)
  {
    if s.highlight < |s.files| - 1 then s.(highlight := s.highlight + 1) else s
  }

  /** Enter: on a directory, change into it and start over at the top of a fresh
      listing whether or not the change succeeded; on a file, hand it to the
      launcher and change nothing. An empty list ignores the key. */
  function Open(s: Session, r: Replies): (o: Outcome)
    ensures |s.files| == 0 ==> o == Idle(s)
    ensures o.OutOfBounds? <==> |s.files| > 0 && !Selectable(s)
    ensures ReadOnly(o)
    ensures o.Continue? && |s.files| > 0 && r.isDirectory ==>
      && o.next.currentPath == FM.ChangeDirectory(s.currentPath, r.dirs, s.files[s.highlight]).path
      && o.next.files == r.listing && o.next.highlight == 0 && o.next.offset == 0
      && o.calls == [IsDirectory(s.files[s.highlight]), ChangeDirectory(s.files[s.highlight]), ListFiles]
    ensures o.Continue? && |s.files| > 0 && !r.isDirectory ==>
      && o.calls == [IsDirectory(s.files[s.highlight]), Launch(s.currentPath, s.files[s.highlight])]
      && o.notices == [Opening(s.files[s.highlight])]
    ensures o.Continue? && r.isDirectory ==> o.notices == []
    ensures o.Continue? && !r.isDirectory ==> o.next == s
  {
    if |s.files| == 0 then Idle(s)
    else if !Selectable(s) then OutOfBounds
    else
      var target := s.files[s.highlight];
      if r.isDirectory then
        var moved := FM.ChangeDirectory(s.currentPath, r.dirs, target);
        Continue(Session(moved.path, r.listing, 0, 0), [IsDirectory(target), ChangeDirectory(target), ListFiles], [])
      else
        Continue(s, [IsDirectory(target), Launch(s.currentPath, target)], [Opening(target)])
  }

  /** KEY_LEFT / KEY_BACKSPACE / 127: change to the parent and start over at the
      top of a fresh listing, whether or not the change succeeded. */
  function Ascend(s: Session, r: Replies): (o: Outcome)
    ensures o.Continue? && ReadOnly(o)
    ensures o.next.currentPath == FM.ChangeDirectory(s.currentPath, r.dirs, "..").path
    ensures o.next.files == r.listing && o.next.highlight == 0 && o.next.offset == 0
    ensures o.calls == [ChangeDirectory(".."), ListFiles]
  {
    var moved := FM.ChangeDirectory(s.currentPath, r.dirs, "..");
    Continue(Session(moved.path, r.listing, 0, 0), [ChangeDirectory(".."), ListFiles], [])
  }

  /** `c` (touch) and `C` (mkdir): an empty name aborts; otherwise create, report,
      and refresh the listing whatever the call returned, keeping the highlight
      and offset as they were. */
  function Create(s: Session, r: Replies, directory: bool): (o: Outcome)
    ensures o.Continue?
    ensures r.answer == "" ==> o == Idle(s)
    ensures r.answer != "" ==> o.next == s.(files := r.listing)
    ensures r.answer != "" ==>
      o.calls == [if directory then CreateDirectory(r.answer) else CreateFile(r.answer), ListFiles]
    ensures r.answer != "" ==> o.notices == [Reported(o.calls[0], r.ok)]
    ensures InRange(s) && |r.listing| >= |s.files| ==> InRange(o.next)
  {
    if r.answer == "" then Idle(s)
    else
      var call := if directory then CreateDirectory(r.answer) else CreateFile(r.answer);
      Continue(s.(files := r.listing), [call, ListFiles], [Reported(call, r.ok)])
  }

  /** `d`: delete the highlighted entry, refresh the listing whatever the call
      returned, and move a positive highlight up one row, also whatever the call
      returned. An empty list ignores the key. */
  function DeleteSelected(s: Session, r: Replies): (o: Outcome)
    ensures |s.files| == 0 ==> o == Idle(s)
    ensures o.OutOfBounds? <==> |s.files| > 0 && !Selectable(s)
    ensures o.Continue? && |s.files| > 0 ==>
      && o.calls == [DeleteFile(s.files[s.highlight]), ListFiles]
      && o.notices == [Reported(DeleteFile(s.files[s.highlight]), r.ok)]
      && o.next.files == r.listing
      && o.next.highlight == (if s.highlight > 0 then s.highlight - 1 else 0)
      && o.next.offset == s.offset && o.next.currentPath == s.currentPath
    ensures o.Continue? && InRange(s) && |r.listing| + 1 >= |s.files| ==> InRange(o.next)
  {
    if |s.files| == 0 then Idle(s)
    else if !Selectable(s) then OutOfBounds
    else
      var name := s.files[s.highlight];
      var next := s.(files := r.listing, highlight := if s.highlight > 0 then s.highlight - 1 else s.highlight);
      Continue(next, [DeleteFile(name), ListFiles], [Reported(DeleteFile(name), r.ok)])
  }

  /** `y` (cp) and `m` (mv): the highlighted entry is the source, read before the
      prompt; an empty destination aborts; otherwise copy or move, report, and
      refresh the listing whatever the call returned, keeping the highlight and
      offset as they were. An empty list ignores the key. */
  function Transfer(s: Session, r: Replies, move: bool): (o: Outcome)
    ensures |s.files| == 0 ==> o == Idle(s)
    ensures o.OutOfBounds? <==> |s.files| > 0 && !Selectable(s)
    ensures o.Continue? && r.answer == "" ==> o == Idle(s)
    ensures o.Continue? && |s.files| > 0 && r.answer != "" ==>
      && o.next == s.(files := r.listing)
      && o.calls == [if move then MoveFile(s.files[s.highlight], r.answer) else CopyFile(s.files[s.highlight], r.answer), ListFiles]
      && o.notices == [Reported(o.calls[0], r.ok)]
    ensures o.Continue? && InRange(s) && |r.listing| >= |s.files| ==> InRange(o.next)
  {
    if |s.files| == 0 then Idle(s)
    else if !Selectable(s) then OutOfBounds
    else
      var src := s.files[s.highlight];
      if r.answer == "" then Idle(s)
      else
        var call := if move then MoveFile(src, r.answer) else CopyFile(src, r.answer);
        Continue(s.(files := r.listing), [call, ListFiles], [Reported(call, r.ok)])
  }

  /** `s` (find): an empty keyword aborts; otherwise show the search results and,
      once a key dismisses them, refresh the listing. */
  function FindEntries(s: Session, r: Replies): (o: Outcome)
    ensures o.Continue? && ReadOnly(o)
    ensures r.answer == "" ==> o == Idle(s)
    ensures r.answer != "" ==>
      && o.next == s.(files := r.listing)
      && o.calls == [SearchFiles(r.answer), ListFiles]
      && o.notices == [Results(r.answer, FM.SearchFiles(r.walk, r.answer))]
  {
    if r.answer == "" then Idle(s)
    else Continue(s.(files := r.listing), [SearchFiles(r.answer), ListFiles], [Results(r.answer, FM.SearchFiles(r.walk, r.answer))])
  }

  /** `p` (chmod): show the highlighted entry's permissions, prompt for new ones;
      an empty answer aborts, an answer of exactly nine characters is handed to
      setPermissions, any other length is refused without a call. The listing
      is not refreshed. An empty list ignores the key. */
  function EditPermissions(s: Session, r: Replies): (o: Outcome)
    ensures |s.files| == 0 ==> o == Idle(s)
    ensures o.OutOfBounds? <==> |s.files| > 0 && !Selectable(s)
    ensures o.Continue? ==> o.next == s
    ensures o.Continue? && |s.files| > 0 ==>
      && 1 <= |o.calls| && o.calls[0] == GetPermissions(s.files[s.highlight])
      && 1 <= |o.notices| && o.notices[0] == ShowPermissions(s.files[s.highlight], FM.GetPermissions(r.stat))
    ensures o.Continue? && |s.files| > 0 ==>
      (SetPermissions(s.files[s.highlight], r.answer) in o.calls <==> |r.answer| == 9)
    ensures o.Continue? ==> forall c | c in o.calls && Mutates(c) :: c.SetPermissions? && |c.mode| == 9
    ensures o.Continue? && |s.files| > 0 && r.answer == "" ==>
      o.notices == [ShowPermissions(s.files[s.highlight], FM.GetPermissions(r.stat))]
    ensures o.Continue? && |s.files| > 0 && r.answer != "" ==>
      o.notices == [ShowPermissions(s.files[s.highlight], FM.GetPermissions(r.stat)),
                    if |r.answer| == 9 then Reported(SetPermissions(s.files[s.highlight], r.answer), r.ok) else InvalidFormat]
  {
    if |s.files| == 0 then Idle(s)
    else if !Selectable(s) then OutOfBounds
    else
      var name := s.files[s.highlight];
      var shown := [ShowPermissions(name, FM.GetPermissions(r.stat))];
      if r.answer == "" then
        Continue(s, [GetPermissions(name)], shown)
      else if |r.answer| == 9 then
        Continue(s, [GetPermissions(name), SetPermissions(name, r.answer)], shown + [Reported(SetPermissions(name, r.answer), r.ok)])
      else
        Continue(s, [GetPermissions(name)], shown + [InvalidFormat])
  }

  // ---------------------------------------------------------------------------
  // One step, and the loop

  /** One pass of the `switch` in `start`. */
  function Step(s: Session, cmd: Command, r: Replies): (o: Outcome)
    ensures o.Exit? <==> cmd == Quit
    ensures o.OutOfBounds? ==> cmd in {Enter, Delete, Copy, Move, Chmod} && !Selectable(s)
    ensures InRange(s) ==> !o.OutOfBounds?
    ensures o.Continue? && 0 <= s.highlight ==> 0 <= o.next.highlight
    ensures o.Continue? && cmd != Enter && cmd != Parent ==> o.next.currentPath == s.currentPath
    ensures o.Continue? && o.next.files != s.files ==> ListFiles in o.calls && o.next.files == r.listing
    ensures o.Continue? ==> forall i | 0 <= i < |o.calls| && Mutates(o.calls[i]) && !o.calls[i].SetPermissions? ::
      o.calls[|o.calls| - 1] == ListFiles
    ensures cmd in {Up, Down, Help, Other} ==> o.Continue? && o.calls == [] && o.next.files == s.files
    ensures cmd in {Up, Down} ==> o.Continue? && o.next == s.(highlight := o.next.highlight) && o.notices == []
    ensures cmd == Help ==> o.Continue? && o.next == s && o.notices == [HelpScreen]
    ensures cmd == Other ==> o == Idle(s)
  {
    match cmd
    case Up => Continue(MoveUp(s), [], [])
    case Down => Continue(MoveDown(s), [], [])
    case Enter => Open(s, r)
    case Parent => Ascend(s, r)
    case Touch => Create(s, r, false)
    case Mkdir => Create(s, r, true)
    case Delete => DeleteSelected(s, r)
    case Copy => Transfer(s, r, false)
    case Move => Transfer(s, r, true)
    case Find => FindEntries(s, r)
    case Chmod => EditPermissions(s, r)
    case Help => Continue(s, [], [HelpScreen])
    case Quit => Exit
    case Other => Idle(s)
  }

  /** One turn of the `while (true)` loop: the terminal's row count, the key
      `getch` returns, and the replies the step receives. */
  datatype Input = Input(rows: int, key: int, replies: Replies)

  /** One turn: draw (which clamps the offset), read a key, dispatch it. A key
      that neither changes the listing nor resets it leaves the offset of the
      frame just drawn, and that frame showed the highlighted row. */
  function Turn(s: Session, i: Input): (o: Outcome)
    ensures o.Exit? <==> i.key == 'q' as int
    ensures o.Continue? && i.rows > Chrome && DecodeKey(i.key) in {Up, Down, Help, Other} ==>
      o.next.offset <= s.highlight < o.next.offset + (i.rows - Chrome)
  {
    Step(Render(s, i.rows), DecodeKey(i.key), i.replies)
  }

  /** Sequencing: the outcome `rest` of what follows `o`, with `o`'s calls and
      notices in front of its own. A stopped `o` stops the sequence. */
  function Then(o: Outcome, rest: Outcome): Outcome {
    if !o.Continue? then o
    else
      match rest
      case Continue(u, calls, notices) => Continue(u, o.calls + calls, o.notices + notices)
      case other => other
  }

  /** The loop over a sequence of turns: each turn acts on the session the
      previous one left, and the calls and notices of all turns are collected
      in order. It stops at the first `q` or undefined read. */
  function Run(s: Session, inputs: seq<Input>): (o: Outcome)
    ensures o.Exit? ==> exists j | 0 <= j < |inputs| :: inputs[j].key == 'q' as int
    decreases |inputs|
  {
    if |inputs| == 0 then Idle(s)
    else
      var o := Turn(s, inputs[0]);
      if !o.Continue? then o
      else
        var rest := Run(o.next, inputs[1..]);
        // a `q` among the later inputs is a `q` among these
        assert rest.Exit? ==> forall j | 0 <= j < |inputs[1..]| :: inputs[1..][j] == inputs[j + 1];
        Then(o, rest)
  }

  /** A one-key run is that key's turn. */
  lemma RunOne(s: Session, i: Input)
    ensures Run(s, [i]) == Turn(s, i)
  {
  }

  /** Unfolds the loop once on a run that starts with `i`. */
  lemma RunCons(s: Session, i: Input, rest: seq<Input>)
    ensures Run(s, [i] + rest) ==
      if Turn(s, i).Continue? then Then(Turn(s, i), Run(Turn(s, i).next, rest)) else Turn(s, i)
  {
    assert ([i] + rest)[0] == i;
    assert ([i] + rest)[1..] == rest;
  }

  lemma ThenAssoc(o: Outcome, p: Outcome, x: Outcome)
    requires o.Continue? && p.Continue?
    ensures Then(o, Then(p, x)) == Then(Then(o, p), x)
  {
  }

  /** Running `a` then `b` is running `a`, then `b` from where `a` left the
      session, with `a`'s calls and notices ahead of `b`'s; a run of `a` that
      stopped is not continued. */
  lemma {:induction false} RunAppend(s: Session, a: seq<Input>, b: seq<Input>)
    ensures Run(s, a).Continue? ==> Run(s, a + b) == Then(Run(s, a), Run(Run(s, a).next, b))
    ensures !Run(s, a).Continue? ==> Run(s, a + b) == Run(s, a)
    decreases |a|
  {
    if |a| == 0 {
      assert a + b == b;
    } else {
      assert a + b == [a[0]] + (a[1..] + b);
      assert a == [a[0]] + a[1..];
      RunCons(s, a[0], a[1..] + b);
      RunCons(s, a[0], a[1..]);
      var o := Turn(s, a[0]);
      if o.Continue? {
        RunAppend(o.next, a[1..], b);
        var r := Run(o.next, a[1..]);
        if r.Continue? {
          ThenAssoc(o, r, Run(r.next, b));
        }
      }
    }
  }

  /** A `q` ends the loop at once: the keys after it are never read, and
      a prefix that already stopped keeps its outcome. */
  lemma {:induction false} RunStopsAtQuit(s: Session, pre: seq<Input>, i: Input, post: seq<Input>)
    requires i.key == 'q' as int
    ensures Run(s, pre + [i] + post) == if Run(s, pre).Continue? then Exit else Run(s, pre)
    decreases |pre|
  {
    if |pre| == 0 {
      assert pre + [i] + post == [i] + post;
    } else {
      assert (pre + [i] + post)[0] == pre[0];
      assert (pre + [i] + post)[1..] == pre[1..] + [i] + post;
      if Turn(s, pre[0]).Continue? {
        RunStopsAtQuit(Turn(s, pre[0]).next, pre[1..], i, post);
      }
    }
  }
}

=== FILE: navigator_properties.dfy ===
/** Properties that relate several steps of the browsing loop, or one step
    under different replies. */
module NavigatorProperties {
  import FM = FileManager
  import opened Navigator

  /** The keys that act on the highlighted entry do nothing on an empty list:
      no call, no change. */
  lemma EmptyListIgnoresEntryKeys(s: Session, cmd: Command, r: Replies)
    requires |s.files| == 0
    requires cmd in {Enter, Delete, Copy, Move, Chmod}
    ensures Step(s, cmd, r) == Idle(s)
  {
  }

  /** An empty prompt answer aborts: nothing changes, nothing is created, copied,
      moved, searched or refreshed. Only chmod has read the permissions by then. */
  lemma EmptyAnswerAborts(s: Session, cmd: Command, r: Replies)
    requires r.answer == ""
    requires cmd in {Touch, Mkdir, Copy, Move, Find, Chmod}
    requires cmd in {Copy, Move, Chmod} ==> InRange(s)
    ensures Step(s, cmd, r).Continue? && Step(s, cmd, r).next == s
    ensures ReadOnly(Step(s, cmd, r))
    ensures ListFiles !in Step(s, cmd, r).calls
    ensures cmd != Chmod ==> Step(s, cmd, r).calls == []
  {
  }

  /** Entering a directory entry, or going to the parent, shows the fresh
      listing from the top however `changeDirectory` answered. */
  lemma NavigationResetsWhateverTheAnswer(s: Session, cmd: Command, r: Replies, dirs: set<FM.Path>)
    requires cmd == Parent || (cmd == Enter && Selectable(s) && r.isDirectory)
    ensures Step(s, cmd, r).Continue? && Step(s, cmd, r.(dirs := dirs)).Continue?
    ensures Step(s, cmd, r).next.files == r.listing
    ensures Step(s, cmd, r).next.highlight == 0 && Step(s, cmd, r).next.offset == 0
    ensures Step(s, cmd, r).next.(currentPath := []) == Step(s, cmd, r.(dirs := dirs)).next.(currentPath := [])
  {
  }

  /** Create, mkdir, delete, copy and move refresh the listing, and delete moves
      the highlight, the same way whether the file manager reported success or
      failure; only the message differs. */
  lemma RefreshIgnoresResult(s: Session, cmd: Command, r: Replies)
    requires cmd in {Touch, Mkdir, Delete, Copy, Move}
    ensures Step(s, cmd, r.(ok := true)).Continue? <==> Step(s, cmd, r.(ok := false)).Continue?
    ensures Step(s, cmd, r.(ok := true)).Continue? ==>
      && Step(s, cmd, r.(ok := true)).next == Step(s, cmd, r.(ok := false)).next
      && Step(s, cmd, r.(ok := true)).calls == Step(s, cmd, r.(ok := false)).calls
  {
  }

  /** A mutating command with a non-empty answer always ends with a refresh. */
  lemma MutationRefreshes(s: Session, cmd: Command, r: Replies)
    requires r.answer != ""
    requires cmd in {Touch, Mkdir, Delete, Copy, Move}
    requires cmd in {Delete, Copy, Move} ==> Selectable(s)
    ensures Step(s, cmd, r).Continue?
    ensures Mutates(Step(s, cmd, r).calls[0]) && Step(s, cmd, r).calls[1] == ListFiles
    ensures Step(s, cmd, r).next.files == r.listing
  {
  }

  /** chmod reaches setPermissions exactly when the answer has nine characters. */
  lemma ChmodLengthGate(s: Session, r: Replies)
    requires Selectable(s)
    ensures Step(s, Chmod, r).Continue?
    ensures (exists i | 0 <= i < |Step(s, Chmod, r).calls| :: Step(s, Chmod, r).calls[i].SetPermissions?)
      <==> |r.answer| == 9
  {
  }

  /** Down then Up comes back to the same row when Down moved. */
  lemma UpUndoesDown(s: Session)
    requires s.highlight < |s.files| - 1 && 0 <= s.highlight
    ensures MoveUp(MoveDown(s)) == s
  {
  }

  /** Up then Down comes back to the same row when Up moved and the list is intact. */
  lemma DownUndoesUp(s: Session)
    requires 0 < s.highlight < |s.files|
    ensures MoveDown(MoveUp(s)) == s
  {
  }

  /** The commands under which the selection invariant survives a step: those
      that do not refresh, those that reset the highlight, and the refreshing
      ones as long as the new listing is not shorter than the old one (one
      shorter for delete, which moves the highlight up). */
  lemma StepPreservesInRange(s: Session, cmd: Command, r: Replies)
    requires InRange(s)
    requires cmd in {Touch, Mkdir, Copy, Move, Find} ==> |r.listing| >= |s.files|
    requires cmd == Delete ==> |r.listing| + 1 >= |s.files|
    ensures Step(s, cmd, r).Continue? ==> InRange(Step(s, cmd, r).next)
  {
  }

  /** Entering a child directory and pressing Backspace comes back to the
      directory it started in. */
  lemma EnterThenParentReturns(s: Session, r: Replies, r': Replies)
    requires Selectable(s) && r.isDirectory && FM.IsEntryName(s.files[s.highlight])
    requires s.currentPath in r.dirs && s.currentPath + [s.files[s.highlight]] in r.dirs
    requires r'.dirs == r.dirs
    ensures Step(s, Enter, r).Continue?
    ensures Step(s, Enter, r).next.currentPath == s.currentPath + [s.files[s.highlight]]
    ensures Step(Step(s, Enter, r).next, Parent, r').next.currentPath == s.currentPath
  {
  }

  /** Pressing only Up and Down never calls the file manager, never changes the
      directory or the listing, and keeps the selection invariant. */
  lemma {:induction false} BrowsingKeepsSelection(s: Session, inputs: seq<Input>)
    requires InRange(s)
    requires forall j | 0 <= j < |inputs| :: DecodeKey(inputs[j].key) in {Up, Down}
    ensures Run(s, inputs).Continue?
    ensures Run(s, inputs).calls == [] && Run(s, inputs).notices == []
    ensures Run(s, inputs).next.files == s.files && Run(s, inputs).next.currentPath == s.currentPath
    ensures InRange(Run(s, inputs).next)
    decreases |inputs|
  {
    if |inputs| > 0 {
      var t := Turn(s, inputs[0]);
      assert DecodeKey(inputs[0].key) in {Up, Down};
      assert t.Continue? && t.calls == [] && t.notices == [];
      assert InRange(t.next);
      assert forall j | 0 <= j < |inputs[1..]| :: inputs[1..][j] == inputs[j + 1];
      BrowsingKeepsSelection(t.next, inputs[1..]);
    }
  }

  /** A directory holding `a.txt`, `b.txt` and `sub`: Down selects `b.txt`, Up
      selects `a.txt` again, and deleting it leaves a valid selection in the
      refreshed listing. */
  lemma DeleteScenario(r: Replies)
    requires r.listing == ["b.txt", "sub"]
    ensures var s0 := Start([], ["a.txt", "b.txt", "sub"]);
      var s1 := Step(s0, Down, r).next;
      var s2 := Step(s1, Up, r).next;
      var o := Step(s2, Delete, r);
      && s1.files[s1.highlight] == "b.txt"
      && s2.files[s2.highlight] == "a.txt"
      && o.Continue? && o.calls == [DeleteFile("a.txt"), ListFiles]
      && o.next.files == ["b.txt", "sub"] && InRange(o.next)
  {
    var files := ["a.txt", "b.txt", "sub"];
    var s0 := Start([], files);
    assert s0 == Session([], files, 0, 0);
    assert Step(s0, Down, r).next == Session([], files, 1, 0);
    assert Step(Session([], files, 1, 0), Up, r).next == s0;
  }
}

=== FILE: permissions.dfy ===
/** The nine-bit permission codec of the file manager: `getPermissions` turns the
    permission bits of a mode word into the r/w/x/- positions of the mode text
    that `ls -l` prints (POSIX.1-2017, `ls`, STDOUT section), without the
    s/S/t/T marks for the set-user-id, set-group-id and sticky bits; and
    `setPermissions` turns such a text back into a `std::filesystem::perms`
    value. A `char` of a text stands for one byte of a `std::string`. */
module Permissions {

  /** A `st_mode` word or a `std::filesystem::perms` value. */
  type Mode = bv32

  const OwnerRead: Mode := 0x100    // S_IRUSR, perms::owner_read   (0400)
  const OwnerWrite: Mode := 0x80    // S_IWUSR, perms::owner_write  (0200)
  const OwnerExec: Mode := 0x40     // S_IXUSR, perms::owner_exec   (0100)
  const GroupRead: Mode := 0x20     // S_IRGRP, perms::group_read   (0040)
  const GroupWrite: Mode := 0x10    // S_IWGRP, perms::group_write  (0020)
  const GroupExec: Mode := 0x8      // S_IXGRP, perms::group_exec   (0010)
  const OthersRead: Mode := 0x4     // S_IROTH, perms::others_read  (0004)
  const OthersWrite: Mode := 0x2    // S_IWOTH, perms::others_write (0002)
  const OthersExec: Mode := 0x1     // S_IXOTH, perms::others_exec  (0001)

  /** The nine bits above. */
  const RwxBits: Mode := 0x1FF
  /** `perms::mask`: the nine bits plus set-user-id, set-group-id and sticky. */
  const AllPerms: Mode := 0xFFF

  /** The bit that position `i` of a permission string stands for. */
  const Masks: seq<Mode> :=
    [OwnerRead, OwnerWrite, OwnerExec, GroupRead, GroupWrite, GroupExec, OthersRead, OthersWrite, OthersExec]

  /** The letter position `i` shows when its bit is set. */
  const Letters: string := "rwxrwxrwx"

  /** The text shown when no bit is set, and when the mode cannot be read. */
  const NoPerms: string := "---------"

  /** A string `getPermissions` can produce: nine positions, each its letter or a dash. */
  predicate IsPermString(s: string) {
    |s| == 9 && forall i | 0 <= i < 9 :: s[i] == Letters[i] || s[i] == '-'
  }

  function Flag(m: Mode, bit: Mode, letter: char): char {
    if m & bit != 0 then letter else '-'
  }

  /** The nine-character text of the permission bits of `m`; the other bits of
      the mode word (file type, set-user-id, ...) do not show. */
  function Encode(m: Mode): (s: string)
    ensures IsPermString(s)
  {
    [ Flag(m, OwnerRead, 'r'), Flag(m, OwnerWrite, 'w'), Flag(m, OwnerExec, 'x'),
      Flag(m, GroupRead, 'r'), Flag(m, GroupWrite, 'w'), Flag(m, GroupExec, 'x'),
      Flag(m, OthersRead, 'r'), Flag(m, OthersWrite, 'w'), Flag(m, OthersExec, 'x') ]
  }

  function Grant(granted: bool, bit: Mode): Mode {
    if granted then bit else 0
  }

  /** The permission set a mode text asks for. A text of any length other than
      nine asks for no permission at all, and a character other than its
      position's letter leaves that bit clear rather than being rejected. */
  function Decode(mode: string): (m: Mode)
    ensures m & !RwxBits == 0
    ensures |mode| != 9 ==> m == 0
  {
    if |mode| == 9 then
      Grant(mode[0] == 'r', OwnerRead) | Grant(mode[1] == 'w', OwnerWrite) | Grant(mode[2] == 'x', OwnerExec) |
      Grant(mode[3] == 'r', GroupRead) | Grant(mode[4] == 'w', GroupWrite) | Grant(mode[5] == 'x', GroupExec) |
      Grant(mode[6] == 'r', OthersRead) | Grant(mode[7] == 'w', OthersWrite) | Grant(mode[8] == 'x', OthersExec)
    else
      0
  }

  /** Position `i` of the text shows its letter exactly when bit `i` is set. */
  lemma EncodePositions(m: Mode)
    ensures forall i | 0 <= i < 9 :: Encode(m)[i] == Letters[i] <==> m & Masks[i] != 0
  {
  }

  /** A nine-character text sets bit `i` exactly when position `i` holds its letter. */
  lemma DecodePositions(mode: string)
    requires |mode| == 9
    ensures forall i | 0 <= i < 9 :: Decode(mode) & Masks[i] != 0 <==> mode[i] == Letters[i]
  {
    var m := Decode(mode);
    assert m == Grant(mode[0] == 'r', 0x100) | Grant(mode[1] == 'w', 0x80) | Grant(mode[2] == 'x', 0x40) |
      Grant(mode[3] == 'r', 0x20) | Grant(mode[4] == 'w', 0x10) | Grant(mode[5] == 'x', 0x8) |
      Grant(mode[6] == 'r', 0x4) | Grant(mode[7] == 'w', 0x2) | Grant(mode[8] == 'x', 0x1);
    assert m & 0x100 != 0 <==> mode[0] == 'r';
    assert m & 0x80 != 0 <==> mode[1] == 'w';
    assert m & 0x40 != 0 <==> mode[2] == 'x';
    assert m & 0x20 != 0 <==> mode[3] == 'r';
    assert m & 0x10 != 0 <==> mode[4] == 'w';
    assert m & 0x8 != 0 <==> mode[5] == 'x';
    assert m & 0x4 != 0 <==> mode[6] == 'r';
    assert m & 0x2 != 0 <==> mode[7] == 'w';
    assert m & 0x1 != 0 <==> mode[8] == 'x';
  }

  /** Only the nine permission bits of a mode word show in its text. */
  lemma EncodeSeesOnlyRwxBits(m1: Mode, m2: Mode)
    requires m1 & RwxBits == m2 & RwxBits
    ensures Encode(m1) == Encode(m2)
  {
  }

  /** Decoding the text of a mode gives back its nine permission bits. */
  lemma DecodeEncode(m: Mode)
    ensures Decode(Encode(m)) == m & RwxBits
  {
  }

  /** A text `getPermissions` can produce survives a round trip through the bits. */
  lemma EncodeDecode(s: string)
    requires IsPermString(s)
    ensures Encode(Decode(s)) == s
  {
  }

  /** What any mode text turns into after being applied and read back: a text of
      the wrong length reads back as no permissions, and in a nine-character text
      every position that is not its letter reads back as a dash. */
  lemma EncodeDecodeNormalises(s: string)
    ensures |s| != 9 ==> Encode(Decode(s)) == NoPerms
    ensures |s| == 9 ==> forall i | 0 <= i < 9 ::
      Encode(Decode(s))[i] == (if s[i] == Letters[i] then Letters[i] else '-')
  {
    EncodePositions(Decode(s));
    if |s| == 9 {
      DecodePositions(s);
    }
  }

  /** Applying and reading back is idempotent. */
  lemma EncodeDecodeIdempotent(s: string)
    ensures Encode(Decode(Encode(Decode(s)))) == Encode(Decode(s))
  {
  }
}

=== FILE: wrappers.dfy ===
/** The one failure-compatible wrapper the model needs: a value that may be absent. */
module Wrappers {

  /** `None` stands for a lookup that failed (a `stat` call that returned -1,
      a `std::filesystem::space` call that threw). */
  datatype Option<+T> = None | Some(value: T) {

    /** Returns the wrapped value, or `default` when there is none. */
    function GetOr(default: T): T
    {
      match this
      case Some(v) => v
      case None => default
    }
  }
}
